=== FILE: README.md ===
# PM Internship Recommender: offline layer, page fallback chain and service decisions

This project models, in Dafny, the request-resilience core of the PM
Internship Recommender web application:

- the **service worker** (`frontend/sw.js`): it classifies each request as
  API or static by the substring `/api/`, answers API requests network
  first (any resolved response passes through, only a rejected fetch falls
  back to the caches, and a miss there becomes a synthetic 503
  `{error, offline: true}`), answers static requests cache first (a network
  answer is stored only when it is ok and the method is GET), pre-caches
  five entry points on install, deletes every cache other than
  `pm-internship-v1` on activate, and honours a `SKIP_WAITING` message;
- the **page script's decisions** (`frontend/script.js`): the API base
  chosen from the host name, the ordered form validation, the filter over
  the three bundled mock records, the fallback chain of
  `getRecommendations` (live data only for an ok response whose `success`
  is truthy, mock data for everything else, and never a rejection), and the
  update-available condition;
- the **Flask service's pure decisions** (`backend/app.py`): Accept-header
  negotiation on `/`, the ordered required-field check, the `remote` flag,
  the `api/` guard and directory order of the static route, and the status
  codes and body shapes of every API route.

Everything is immutable data and total functions. Cache Storage is a
sequence of named caches (`CacheStorage.Storage`) in creation order,
because `caches.match` answers from the oldest cache holding the request.
The network (`Http.NetOutcome`: rejected, or resolved with a response of
any status), whether a background cache write lands
(`ServiceWorker.WriteOutcome`), `navigator.onLine`, the filesystem (a set of
existing paths) and the recommendation engine (function parameters whose
answers are uninterpreted) are all inputs.

Modules: `Wrappers` (Option, Result), `Text` (case folding, prefix and
substring tests), `Json` (JSON values, JavaScript and Python truthiness,
JavaScript property access), `Http`, `CacheStorage`, `ServiceWorker`,
`Client` (the page script), `Chain` (page and worker composed) and
`Backend`.

Behaviours of the code worth noting:

- an API response with a non-ok status is returned as is; the caches are
  consulted only when the fetch itself rejects;
- static responses are cached only for GET requests;
- activation leaves at most one cache (the current one, if it existed);
  it does not create one;
- the mock filter lower-cases only the requirement, not the skill, so a
  skill containing a capital letter never matches
  (`Client.CapitalisedSkillNeverMatches`);
- the offline notification is also shown for a worker-synthesised 503 when
  the browser reports being online (`Chain.OfflineEndsInMockData`).

## Model

| member | source | states |
|---|---|---|
| Text.ContainsIff | frontend/sw.js:44 | the scan used for `includes` succeeds exactly when the pattern occurs at some index of the text |
| Json.JsTruthy | frontend/script.js:75-80 | JavaScript truthiness as `!data.education`, `!data.location`, `errorData.offline` (line 112) and `!data.success` (line 122) test it: falsy exactly for `undefined`, `null`, `false`, `0` and the empty string |
| Json.PyTruthy | backend/app.py:164 | Python truthiness as `not internship` tests it: falsy exactly for `None`, `False`, `0`, `''`, `[]` and `{}` |
| Json.TruthinessDiffers | backend/app.py:164 | the JavaScript and Python notions disagree exactly on the empty array and the empty object |
| Text.LowerChar | frontend/script.js:188 | ASCII upper-case letters move to lower case, every other character is kept, and no result is an ASCII capital |
| Text.ToLower | frontend/script.js:188-192 | `toLowerCase` (and `.lower()` at backend/app.py:138) keeps the length and folds each character independently |
| Json.Prop | frontend/script.js:111-112 | reading a property of `null` throws; an object yields the field when present; for the keys the scripts read (`offline`, `success`, `recommendations`, `type`) every other value yields `undefined` |
| Http.ParseJson | frontend/script.js:111 | `response.json()` yields the body's JSON value exactly when the body is JSON, and otherwise throws |
| CacheStorage.Open | frontend/sw.js:15 | the named cache exists afterwards; an existing cache is returned unchanged, a new empty one is appended; no entry changes |
| CacheStorage.Put | frontend/sw.js:51-53 | the entry for the request in the named cache becomes the response; every other (cache, request) lookup is unchanged; names stay distinct |
| CacheStorage.Match | frontend/sw.js:59-62 | answers iff some cache holds the request, and then the entry of the first such cache in creation order |
| CacheStorage.PutThenMatch | frontend/sw.js:49-62 | a stored response is read back verbatim from its cache, and by `caches.match` when no other cache holds the request |
| CacheStorage.OpenIdempotent | frontend/sw.js:15 | opening the same cache twice creates it once |
| CacheStorage.DeleteAllBut | frontend/sw.js:27-35 | only caches with the kept name remain, at most one when names are distinct, with the kept cache's entries intact |
| ServiceWorker.IsApiIff | frontend/sw.js:44 | a request is API exactly when `/api/` occurs somewhere in its URL, whatever its method |
| ServiceWorker.WriteBack | frontend/sw.js:49-53 | `caches.open` always leaves the worker's cache in place (created empty when missing); a landed `put` makes it answer the response for the request, a lost one leaves storage as the open left it; no other lookup changes |
| ServiceWorker.OfflineResponse | frontend/sw.js:64-73 | the synthetic answer has status 503, a JSON content type, `offline: true` and the offline `error` text |
| ServiceWorker.NetworkFirst | frontend/sw.js:45-76 | a resolved response is returned whatever its status and stored only when ok; a rejection returns the first cached entry, or the offline answer on a miss, without touching the caches; it never fails |
| ServiceWorker.CacheFirst | frontend/sw.js:80-96 | a cache hit is returned with storage unchanged; on a miss the network response is returned, stored only when ok and GET, and a rejection fails the request with storage unchanged |
| ServiceWorker.HandleFetch | frontend/sw.js:42-98 | API requests always get a response; only the worker's own cache entry for the request can change, and storage changes at all only for an ok network answer (the open may create the worker's cache even when the `put` is lost) |
| ServiceWorker.ReplyIndependentOfWrite | frontend/sw.js:49-55 | the reply is the same whether the background cache write lands or is lost |
| ServiceWorker.StaticHitIgnoresNetwork | frontend/sw.js:81-84 | for a static request with a cache hit, every network outcome gives the same reply and storage |
| ServiceWorker.StrategyAsymmetry | frontend/sw.js:44-96 | with both an ok network answer and a cached entry, an API request gets the network answer and a static request the cached one |
| ServiceWorker.ApiErrorStatusSkipsFallback | frontend/sw.js:47-57 | a non-ok API response is returned unchanged even when a cached copy exists, and nothing is stored |
| ServiceWorker.PutAll | frontend/sw.js:17 | every listed URL is stored as a GET entry holding its fetched response; all other lookups are unchanged |
| ServiceWorker.AddAll | frontend/sw.js:15-18 | succeeds exactly when every URL fetches ok, and then every URL's GET entry in `pm-internship-v1` holds its fetched response while every other cache and entry is unchanged |
| ServiceWorker.Install | frontend/sw.js:12-21 | skip-waiting is requested on every install; the worker is installed iff all five entry points fetch ok, and then each of the five GET entries holds its fetched response and every other cache and entry is as before; otherwise it is redundant and the storage is what `caches.open` left: the existing `pm-internship-v1` cache with its entries untouched, or a new empty one when none existed |
| ServiceWorker.Activate | frontend/sw.js:24-39 | every remaining cache is named `pm-internship-v1`, at most one remains, its entries are kept, and clients are claimed |
| ServiceWorker.ActivatedMatchUsesCurrentCache | frontend/sw.js:24-39 | after activation `caches.match` answers exactly from the current cache |
| ServiceWorker.OnMessage | frontend/sw.js:101-104 | skip-waiting is requested iff the data is an object whose `type` is `SKIP_WAITING`; any other message leaves the worker unchanged |
| Client.ApiBaseUrl | frontend/script.js:2-4 | the local API base iff the host name is exactly `localhost` or `127.0.0.1`, the deployed one otherwise |
| Client.ValidateFormData | frontend/script.js:73-96 | valid iff education, location, skills and interests are all non-empty; otherwise exactly one alert, for the first failing check in that order |
| Client.FilterKept | frontend/script.js:186-194 | the kept records are an order-preserving subsequence holding exactly the records that pass both tests, each with all its copies |
| Client.Take | frontend/script.js:195 | `slice(0, n)` is a prefix of at most `n` elements, the whole list when it is shorter |
| Client.GetMockRecommendations | frontend/script.js:141-196 | at most five records, an order-preserving subsequence of the dataset, holding exactly the records with a skill match and a location match |
| Client.NoSkillsNoMock | frontend/script.js:187-189 | no skills selected gives no mock records |
| Client.MockExample | frontend/script.js:143-195 | skill `computer skills` with location `bangalore` gives records 1 and 3, in that order |
| Client.CapitalisedSkillNeverMatches | frontend/script.js:187-189 | the skill is not lower-cased: a skill with a capital letter matches no requirement |
| Client.TryRecommend | frontend/script.js:99-126 | the `try` block returns mock data only together with the offline notification |
| Client.Catch | frontend/script.js:128-138 | every caught error yields the mock data, with the offline notification iff the browser is offline |
| Client.GetRecommendations | frontend/script.js:98-139 | live data iff the response is ok and its JSON object has a truthy `success`, and then it is `recommendations`; mock data otherwise; offline notification iff a non-ok 503 carries a truthy `offline`, or the browser is offline and the data is not live |
| Client.ThrowsLandInCatch | frontend/script.js:128-138 | whatever the `try` block throws, the result is the `catch` result |
| Client.UpdateAvailable | frontend/script.js:448 | the notice needs an existing controller and the new worker's state `installed` (its link to install is `Chain.UpdateNoticeAfterInstall`) |
| Chain.RecommendUrlIsApi | frontend/script.js:2-4 | the recommendation URL is an API request for the worker under either API base |
| Chain.OfflineEndsInMockData | frontend/script.js:108-115 | network down and nothing cached: caches unchanged, and the page shows mock data with the offline notification whatever `navigator.onLine` says |
| Chain.CachedAnswerServedOffline | frontend/sw.js:57-62 | network down with a cached success answer: the page shows the cached recommendations as live data without a notification; in the browser this path is reachable only for GET API requests, not for the page's POST to `/recommend` |
| Chain.ServerErrorEndsInMockData | frontend/script.js:108-117 | a non-ok, non-503 answer reaches the page unchanged and ends in mock data, announced offline only when the browser is offline |
| Chain.UpdateNoticeAfterInstall | frontend/script.js:445-452 | the update notification fires iff the new worker's pre-cache succeeded and a controller already exists |
| Backend.ServerError | backend/app.py:106-107 | an exception becomes status 500 with `error` holding its message |
| Backend.HomeAsWritten | backend/app.py:17-72 | JSON metadata iff Accept contains `application/json` and not `text/html`; otherwise the first index path if it exists, else the diagnostic page with status 200 |
| Backend.HomeSkipsFallbackPaths | backend/app.py:40-46 | with only a fallback index path present, the code as written answers the diagnostic page while the intended loop serves the file |
| Backend.PathJoin | backend/app.py:35 | `os.path.join`: an absolute second part replaces the first; otherwise the result is the first part, at most one inserted separator, then the second part, with a `/` just before the second part whenever the first is non-empty |
| Backend.FirstExisting | backend/app.py:40-42 | the first path of the list that exists, and none exactly when no path exists |
| Backend.HomeIntended | backend/app.py:33-44 | the diagnostic page is answered iff none of the three index paths exists; a served file is the first of them, in order, that exists |
| Backend.PyContains | backend/app.py:94 | Python `in`: key of a dict, element of a list, substring of a string; TypeError for null, booleans and numbers |
| Backend.FirstMissing | backend/app.py:92-95 | reports the first field, in list order, that is absent while all earlier ones are present; none iff every field is present |
| Backend.Recommend | backend/app.py:85-107 | status 400 iff the parsed body lacks a required field; 200 only with the engine's list, `success` true and `total` its length; otherwise 500 |
| Backend.PresenceIsEnough | backend/app.py:93-98 | a dict holding all four keys reaches the engine whatever their values, empty ones included |
| Backend.MissingFieldReported | backend/app.py:92-95 | the first absent key in the order education, skills, interests, location is named in the 400 answer |
| Backend.AllInternships | backend/app.py:109-119 | status 200 iff the engine answers, with `success` true and `total` the list length; 500 on an exception |
| Backend.Sectors | backend/app.py:121-130 | status 200 iff the engine answers, with `success` true and the sectors; 500 on an exception |
| Backend.InternshipDetails | backend/app.py:160-172 | 404 iff the engine's answer is falsy, 200 with the internship iff truthy, 500 on an exception |
| Backend.RemoteFlag | backend/app.py:138 | true iff the `remote` parameter is present and lower-cases to `true`; false when absent |
| Backend.ArgValue | backend/app.py:136-137 | a present parameter is echoed as its raw string, an absent one as null |
| Backend.Search | backend/app.py:132-158 | on success the engine's list with `success` true and `total` its length, and the raw sector and location with the parsed remote flag echoed as filters |
| Backend.ServeStatic | backend/app.py:198-220 | an `api/` path is a 404 JSON answer; otherwise the file under the frontend directory, else under `./frontend`, else a 404 |
| Backend.ApiGuardBeforeFilesystem | backend/app.py:202-204 | the `api/` guard answers without looking at the filesystem |

## Findings

| source | as written | input that shows it | evidently intended | confidence | as-written member | corrected member |
|---|---|---|---|---|---|---|
| backend/app.py:40-46 | the diagnostic `return` is indented inside the `for` loop, so the loop stops after testing the first path | Accept absent, `FRONTEND_DIR/index.html` missing, `./frontend/index.html` present: the diagnostic page is served | try all three paths in order and serve the diagnostic page only when none exists | high (indentation is unambiguous); not executed | Backend.HomeAsWritten, shown by Backend.HomeSkipsFallbackPaths | Backend.HomeIntended |

## Left out

- Browser host semantics: promise scheduling, `waitUntil`, the real timing of `skipWaiting` and `clients.claim` (modelled as flags on `ServiceWorker.Worker`), and the fire-and-forget race of cache writes, which is modelled as a storage update the reply does not depend on.
- ServiceWorker.AddAll: all-or-nothing is a host assumption about `cache.addAll`; a failed install stores nothing, leaving the cache `caches.open` returned as it was (usually the existing `pm-internship-v1` cache, since the name does not change between versions).
- The Cache API's refusal to `put` a non-GET request, and the fact that `caches.match` never matches a non-GET request: the model stores and matches any request keyed by method and URL, so for the page's POST to `/api/recommend` it admits a cache fallback (`Chain.CachedAnswerServedOffline`) that the browser never takes; there a rejected fetch always ends in the synthetic 503.
- Request matching: cache keys are the method and URL strings as given, with no resolution of relative URLs against the origin (pre-cached entries are keyed by the relative paths of the install list); the host's URL normalisation and `Vary` handling are not modelled.
- Text.LowerChar: case folding is ASCII only; JavaScript `toLowerCase` and Python `lower` fold all of Unicode.
- Json: numbers are integers; `NaN` and fractions are not modelled.
- Client.TryRecommend: the thrown message (`data.error` or the fixed fallback text) is not modelled; every throw carries the fixed text, because the message only reaches `console.warn` and never changes the result.
- DOM and rendering glue: `collectFormData` (its output is the `Client.FormData` input), card templating, alerts, notifications, accessibility wiring, the loading and results toggles, and the submit handler around validation.
- Backend.HomeAsWritten: the diagnostic page's HTML is abbreviated to a constant, and the exception branch of `home` (a failing `send_file`) is not modelled.
- Backend.ServeStatic: `send_from_directory`'s own path checks (which can also answer 404) are not modelled.
- Backend.Search: a query parameter given several times is modelled by its first value only (a map).
- The recommendation engine: its ranking, search and lookup are foreign code; their answers are parameters.
- Flask and CORS set-up, the `/debug` route, `os.getcwd`/`os.listdir`, and server start-up: framework plumbing and I/O.

=== FILE: backend.dfy ===
/** The Flask service's request decisions: content negotiation on `/`, the
    required-field check of `/api/recommend`, the search flag, the catch-all
    static route, and the status codes and body shapes of every API route.
    The recommendation engine is a parameter: its answers are uninterpreted. */
module Backend {
  import opened Wrappers
  import opened Text
  import opened Json

  /** A reply of the service. */
  datatype Reply =
    | JsonReply(status: int, body: Value)   // `jsonify(...)`, with a status
    | FileReply(path: string)               // `send_file` / `send_from_directory`, status 200
    | HtmlReply(status: int, html: string)  // a literal HTML page

  /** The filesystem, as the set of paths `os.path.exists` accepts. */
  type FileSystem = set<string>

  /** `os.path.join(a, b)`: an absolute `b` replaces `a`; otherwise a
      separator is inserted unless `a` is empty or already ends in one. */
  function PathJoin(a: string, b: string): (r: string)
    ensures IsPrefix("/", b) ==> r == b
    ensures !IsPrefix("/", b) ==> IsPrefix(a, r)
    ensures !IsPrefix("/", b) ==> |a| + |b| <= |r| <= |a| + |b| + 1 && r[|r| - |b|..] == b
    ensures !IsPrefix("/", b) && a != [] ==> r[|r| - |b| - 1] == '/'
  {
    if IsPrefix("/", b) then b
    else if a == [] || a[|a| - 1] == '/' then a + b
    else a + "/" + b
  }

  /** `str(e)` of a raised exception. */
  datatype Exception = Exception(message: string)

  /** `{'error': str(e)}` with status 500, the answer of every API route to
      an exception. */
  function ServerError(e: Exception): (r: Reply)
    ensures r.JsonReply? && r.status == 500
    ensures Prop(r.body, "error") == Ok(Some(Str(e.message)))
  {
    JsonReply(500, Obj(map["error" := Str(e.message)]))
  }

  // `/`

  const HomeCandidates: seq<string> := ["./frontend/index.html", "frontend/index.html"]

  /** The JSON metadata is chosen only by an explicit JSON client. */
  predicate WantsJson(accept: string) {
    Contains(accept, "application/json") && !Contains(accept, "text/html")
  }

  /** The service metadata; `frontend_available` reports whether the
      primary index file exists. */
  function Metadata(frontendDir: string, fs: FileSystem): Value {
    Obj(map[
      "message" := Str("PM Internship Recommender API"),
      "version" := Str("1.0.0"),
      "status" := Str("active"),
      "frontend_available" := Bool(PathJoin(frontendDir, "index.html") in fs)])
  }

  const DiagnosticPage: string := "<!DOCTYPE html> PM Internship Finder: Loading application..."

  /** The three paths `home` means to try for the index page. */
  function IndexPaths(frontendDir: string): seq<string> {
    [PathJoin(frontendDir, "index.html")] + HomeCandidates
  }

  /** `home` as written: the loop body ends in the diagnostic `return`, so
      the loop runs once and only the first path is ever looked up. An absent
      `Accept` header reads as the empty string. */
  function HomeAsWritten(accept: Option<string>, frontendDir: string, fs: FileSystem): (r: Reply)
    ensures WantsJson(accept.GetOr("")) ==> r == JsonReply(200, Metadata(frontendDir, fs))
    ensures !WantsJson(accept.GetOr("")) && PathJoin(frontendDir, "index.html") in fs ==>
      r == FileReply(PathJoin(frontendDir, "index.html"))
    ensures !WantsJson(accept.GetOr("")) && PathJoin(frontendDir, "index.html") !in fs ==>
      r == HtmlReply(200, DiagnosticPage)
  {
    var acceptHeader := accept.GetOr("");
    if WantsJson(acceptHeader) then JsonReply(200, Metadata(frontendDir, fs))
    else FirstIterationOnly(IndexPaths(frontendDir), fs)
  }

  /** One pass of the loop whose body returns in both branches. */
  function FirstIterationOnly(paths: seq<string>, fs: FileSystem): Reply
    requires |paths| > 0
  {
    if paths[0] in fs then FileReply(paths[0]) else HtmlReply(200, DiagnosticPage)
  }

  /** With the primary path missing and a fallback present, the code as
      written still answers the diagnostic page. */
  lemma HomeSkipsFallbackPaths(frontendDir: string, fs: FileSystem)
    requires PathJoin(frontendDir, "index.html") !in fs
    requires "./frontend/index.html" in fs
    ensures HomeAsWritten(None, frontendDir, fs) == HtmlReply(200, DiagnosticPage)
    ensures HomeIntended(None, frontendDir, fs) == FileReply("./frontend/index.html")
  {
    NotContainsLonger("", "application/json");
    var paths := IndexPaths(frontendDir);
    assert paths[1..][0] == "./frontend/index.html";
    assert FirstExisting(paths[1..], fs) == Some("./frontend/index.html");
  }

  /** `paths[i]` is the first path of `paths` that exists. */
  ghost predicate FirstIn(paths: seq<string>, fs: FileSystem, i: int) {
    0 <= i < |paths| && paths[i] in fs && forall j :: 0 <= j < i ==> paths[j] !in fs
  }

  /** The first existing path of `paths`, if any. */
  function FirstExisting(paths: seq<string>, fs: FileSystem): (r: Option<string>)
    ensures r.Some? ==> r.value in fs && exists i :: FirstIn(paths, fs, i) && paths[i] == r.value
    ensures r.None? <==> forall p | p in paths :: p !in fs
  {
    if |paths| == 0 then None
    else if paths[0] in fs then Some(paths[0])
    else
      var r := FirstExisting(paths[1..], fs);
      assert forall j :: 1 <= j < |paths| ==> paths[j] == paths[1..][j - 1];
      r
  }

  /** `home` as its comments describe it: every candidate path is tried in
      order and the diagnostic page is the answer only when none exists. */
  function HomeIntended(accept: Option<string>, frontendDir: string, fs: FileSystem): (r: Reply)
    ensures WantsJson(accept.GetOr("")) ==> r == JsonReply(200, Metadata(frontendDir, fs))
    ensures !WantsJson(accept.GetOr("")) ==>
      (r == HtmlReply(200, DiagnosticPage) <==> forall p | p in IndexPaths(frontendDir) :: p !in fs)
    ensures !WantsJson(accept.GetOr("")) && r.FileReply? ==>
      r.path in fs && r.path in IndexPaths(frontendDir)
    ensures !WantsJson(accept.GetOr("")) && r.FileReply? ==>
      exists i :: FirstIn(IndexPaths(frontendDir), fs, i) && IndexPaths(frontendDir)[i] == r.path
  {
    var acceptHeader := accept.GetOr("");
    if WantsJson(acceptHeader) then JsonReply(200, Metadata(frontendDir, fs))
    else match FirstExisting(IndexPaths(frontendDir), fs)
      case Some(p) => FileReply(p)
      case None => HtmlReply(200, DiagnosticPage)
  }

  // `/api/recommend`

  const RequiredFields: seq<string> := ["education", "skills", "interests", "location"]

  /** Python's `field in candidate_data` for each shape the parsed body can
      take: key of a dict, element of a list, substring of a string; any
      other value raises a TypeError. */
  function PyContains(field: string, container: Value): (r: Result<bool>)
    ensures container.Obj? ==> r == Ok(field in container.fields)
    ensures container.Arr? ==> r == Ok(Str(field) in container.items)
    ensures container.Str? ==> r.Ok? && (r.value <==> exists i :: OccursAt(container.s, field, i))
    ensures r.Err? <==> container.Null? || container.Bool? || container.Num?
  {
    match container
    case Obj(fields) => Ok(field in fields)
    case Arr(items) => Ok(Str(field) in items)
    case Str(s) => ContainsIff(s, field); Ok(Contains(s, field))
    case Null => Err("argument of type 'NoneType' is not iterable")
    case Bool(_) => Err("argument of type 'bool' is not iterable")
    case Num(_) => Err("argument of type 'int' is not iterable")
  }

  /** `fields[i]` is the first field reported absent, all earlier ones present. */
  ghost predicate FirstAbsent(fields: seq<string>, data: Value, i: int) {
    && 0 <= i < |fields|
    && PyContains(fields[i], data) == Ok(false)
    && forall j :: 0 <= j < i ==> PyContains(fields[j], data) == Ok(true)
  }

  lemma FirstAbsentUnique(fields: seq<string>, data: Value, i: int, k: int)
    requires FirstAbsent(fields, data, i) && FirstAbsent(fields, data, k)
    ensures i == k
  {
  }

  /** The required-field loop: the first absent field, in the listed order. */
  function FirstMissing(fields: seq<string>, data: Value): (r: Result<Option<string>>)
    ensures r.Err? <==> |fields| > 0 && PyContains(fields[0], data).Err?
    ensures r.Ok? && r.value.Some? ==> exists i :: FirstAbsent(fields, data, i) && fields[i] == r.value.value
    ensures r.Ok? && r.value.None? <==> forall f | f in fields :: PyContains(f, data) == Ok(true)
  {
    if |fields| == 0 then Ok(None)
    else match PyContains(fields[0], data)
      case Err(e) => Err(e)
      case Ok(present) =>
        if !present then Ok(Some(fields[0]))
        else
          var r := FirstMissing(fields[1..], data);
          assert forall j :: 1 <= j < |fields| ==> fields[j] == fields[1..][j - 1];
          r
  }

  /** The request body as `request.get_json()` sees it: a parsed value, or
      a failure (malformed JSON, wrong content type) that raises. */
  datatype JsonRequest = Parsed(value: Value) | Unparsable(error: Exception)

  /** The engine's answer to one call: a value, or a raised exception. */
  datatype EngineAnswer<T> = Returns(value: T) | Raises(error: Exception)

  /** `POST /api/recommend`. */
  function Recommend(body: JsonRequest, engine: Value -> EngineAnswer<seq<Value>>): (r: Reply)
    ensures r.JsonReply?
    ensures r.status == 400 <==> (body.Parsed? && FirstMissing(RequiredFields, body.value).Ok?
                                  && FirstMissing(RequiredFields, body.value).value.Some?)
    ensures r.status == 200 ==> (body.Parsed? && engine(body.value).Returns?
                                 && IsSuccessList(r.body, "recommendations", engine(body.value).value))
    ensures r.status in {200, 400, 500}
    ensures body.Unparsable? ==> r == ServerError(body.error)
    ensures body.Parsed? && FirstMissing(RequiredFields, body.value).Err? ==>
      r == ServerError(Exception(FirstMissing(RequiredFields, body.value).message))
    ensures body.Parsed? && FirstMissing(RequiredFields, body.value) == Ok(None) ==>
      (engine(body.value).Returns? <==> r.status == 200)
    ensures body.Parsed? && FirstMissing(RequiredFields, body.value) == Ok(None) && engine(body.value).Raises? ==>
      r == ServerError(engine(body.value).error)
    ensures body.Parsed? && FirstMissing(RequiredFields, body.value).Ok?
            && FirstMissing(RequiredFields, body.value).value.Some? ==>
      r.body == Obj(map["error" := Str("Missing required field: " + FirstMissing(RequiredFields, body.value).value.value)])
  {
    match body
    case Unparsable(e) => ServerError(e)
    case Parsed(data) =>
      match FirstMissing(RequiredFields, data)
      case Err(msg) => ServerError(Exception(msg))
      case Ok(Some(field)) => JsonReply(400, Obj(map["error" := Str("Missing required field: " + field)]))
      case Ok(None) =>
        match engine(data)
        case Raises(e) => ServerError(e)
        case Returns(recs) => JsonReply(200, SuccessList("recommendations", recs, map[]))
  }

  /** A success body carrying a list under `key` plus its length under
      `total`, and any extra entries. */
  function SuccessList(key: string, items: seq<Value>, extra: map<string, Value>): (v: Value)
    requires key !in {"success", "total"}
    ensures IsSuccessList(v, key, items)
  {
    Obj(extra + map["success" := Bool(true), key := Arr(items), "total" := Num(|items|)])
  }

  /** `success` is true, `key` holds the list and `total` its length. */
  predicate IsSuccessList(v: Value, key: string, items: seq<Value>) {
    && v.Obj?
    && Prop(v, "success") == Ok(Some(Bool(true)))
    && Prop(v, key) == Ok(Some(Arr(items)))
    && Prop(v, "total") == Ok(Some(Num(|items|)))
  }

  /** Presence is all that is checked: a dict with all four keys reaches the
      engine whatever their values, empty lists and strings included. */
  lemma PresenceIsEnough(fields: map<string, Value>, engine: Value -> EngineAnswer<seq<Value>>)
    requires forall f | f in RequiredFields :: f in fields
    requires engine(Obj(fields)).Returns?
    ensures Recommend(Parsed(Obj(fields)), engine).status == 200
  {
  }

  /** The first missing key, in the order education, skills, interests,
      location, names the 400 answer. */
  lemma MissingFieldReported(fields: map<string, Value>, k: nat, engine: Value -> EngineAnswer<seq<Value>>)
    requires k < |RequiredFields| && RequiredFields[k] !in fields
    requires forall j :: 0 <= j < k ==> RequiredFields[j] in fields
    ensures Recommend(Parsed(Obj(fields)), engine)
      == JsonReply(400, Obj(map["error" := Str("Missing required field: " + RequiredFields[k])]))
  {
    var r := FirstMissing(RequiredFields, Obj(fields));
    assert PyContains(RequiredFields[k], Obj(fields)) == Ok(false);
    assert RequiredFields[k] in RequiredFields;
    assert r.Ok? && r.value.Some?;
    var i :| FirstAbsent(RequiredFields, Obj(fields), i) && RequiredFields[i] == r.value.value;
    assert FirstAbsent(RequiredFields, Obj(fields), k);
    FirstAbsentUnique(RequiredFields, Obj(fields), i, k);
  }

  // `/api/internships`, `/api/sectors`, `/api/internships/<id>`

  /** `GET /api/internships`. */
  function AllInternships(engine: EngineAnswer<seq<Value>>): (r: Reply)
    ensures r.JsonReply? && (r.status == 200 <==> engine.Returns?)
    ensures engine.Returns? ==> IsSuccessList(r.body, "internships", engine.value)
    ensures engine.Raises? ==> r == ServerError(engine.error)
  {
    match engine
    case Raises(e) => ServerError(e)
    case Returns(items) => JsonReply(200, SuccessList("internships", items, map[]))
  }

  /** `GET /api/sectors`. */
  function Sectors(engine: EngineAnswer<Value>): (r: Reply)
    ensures r.JsonReply? && (r.status == 200 <==> engine.Returns?)
    ensures engine.Returns? ==> Prop(r.body, "success") == Ok(Some(Bool(true)))
    ensures engine.Returns? ==> Prop(r.body, "sectors") == Ok(Some(engine.value))
    ensures engine.Raises? ==> r == ServerError(engine.error)
  {
    match engine
    case Raises(e) => ServerError(e)
    case Returns(sectors) => JsonReply(200, Obj(map["success" := Bool(true), "sectors" := sectors]))
  }

  /** `GET /api/internships/<id>`: a falsy engine answer (`None`, an empty
      dict, ...) is a 404. */
  function InternshipDetails(engine: EngineAnswer<Value>): (r: Reply)
    ensures r.JsonReply?
    ensures r.status == 404 <==> engine.Returns? && !PyTruthy(engine.value)
    ensures r.status == 200 <==> engine.Returns? && PyTruthy(engine.value)
    ensures r.status == 200 ==> Prop(r.body, "internship") == Ok(Some(engine.value))
    ensures engine.Raises? ==> r == ServerError(engine.error)
  {
    match engine
    case Raises(e) => ServerError(e)
    case Returns(internship) =>
      if !PyTruthy(internship) then JsonReply(404, Obj(map["error" := Str("Internship not found")]))
      else JsonReply(200, Obj(map["success" := Bool(true), "internship" := internship]))
  }

  // `/api/internships/search`

  /** The `remote` query flag: `request.args.get('remote', '').lower() == 'true'`. */
  function RemoteFlag(args: map<string, string>): (r: bool)
    ensures "remote" !in args ==> !r
    ensures r <==> ("remote" in args && |args["remote"]| == 4
                    && forall i :: 0 <= i < 4 ==> LowerChar(args["remote"][i]) == "true"[i])
  {
    ToLower(if "remote" in args then args["remote"] else "") == "true"
  }

  /** An optional query parameter as a JSON value (`None` becomes `null`). */
  function ArgValue(args: map<string, string>, key: string): (r: Value)
    ensures key in args <==> r.Str?
    ensures key in args ==> r == Str(args[key])
  {
    if key in args then Str(args[key]) else Null
  }

  datatype SearchQuery = SearchQuery(sector: Value, location: Value, isRemote: bool)

  /** `GET /api/internships/search`: the parsed filters go to the engine and
      are echoed back unchanged. */
  function Search(args: map<string, string>, engine: SearchQuery -> EngineAnswer<seq<Value>>): (r: Reply)
    ensures r.JsonReply? && r.status in {200, 500}
    ensures var q := SearchQuery(ArgValue(args, "sector"), ArgValue(args, "location"), RemoteFlag(args));
      engine(q).Returns? <==> r.status == 200
    ensures var q := SearchQuery(ArgValue(args, "sector"), ArgValue(args, "location"), RemoteFlag(args));
      engine(q).Raises? ==> r == ServerError(engine(q).error)
    ensures r.status == 200 ==>
      var q := SearchQuery(ArgValue(args, "sector"), ArgValue(args, "location"), RemoteFlag(args));
      && engine(q).Returns?
      && IsSuccessList(r.body, "internships", engine(q).value)
      && Prop(r.body, "filters") == Ok(Some(Obj(map[
           "sector" := ArgValue(args, "sector"),
           "location" := ArgValue(args, "location"),
           "remote" := Bool(RemoteFlag(args))])))
  {
    var q := SearchQuery(ArgValue(args, "sector"), ArgValue(args, "location"), RemoteFlag(args));
    match engine(q)
    case Raises(e) => ServerError(e)
    case Returns(results) =>
      var filters := Obj(map["sector" := q.sector, "location" := q.location, "remote" := Bool(q.isRemote)]);
      JsonReply(200, SuccessList("internships", results, map["filters" := filters]))
  }

  // The catch-all static route

  const LocalFrontendDir: string := "./frontend"

  /** `/<path:filename>`: API-looking paths are refused before the
      filesystem is consulted; otherwise the deployed frontend directory is
      preferred over the working-directory one. */
  function ServeStatic(filename: string, frontendDir: string, fs: FileSystem): (r: Reply)
    ensures IsPrefix("api/", filename) ==> r == JsonReply(404, Obj(map["error" := Str("API endpoint not found")]))
    ensures !IsPrefix("api/", filename) && PathJoin(frontendDir, filename) in fs ==>
      r == FileReply(PathJoin(frontendDir, filename))
    ensures (!IsPrefix("api/", filename) && PathJoin(frontendDir, filename) !in fs
             && PathJoin(LocalFrontendDir, filename) in fs) ==> r == FileReply(PathJoin(LocalFrontendDir, filename))
    ensures r.FileReply? <==> (!IsPrefix("api/", filename)
                               && (PathJoin(frontendDir, filename) in fs || PathJoin(LocalFrontendDir, filename) in fs))
    ensures !r.FileReply? ==> r.JsonReply? && r.status == 404
  {
    if IsPrefix("api/", filename) then JsonReply(404, Obj(map["error" := Str("API endpoint not found")]))
    else if PathJoin(frontendDir, filename) in fs then FileReply(PathJoin(frontendDir, filename))
    else if PathJoin(LocalFrontendDir, filename) in fs then FileReply(PathJoin(LocalFrontendDir, filename))
    else
      var e := Exception("File " + filename + " not found in any location");
      JsonReply(404, Obj(map[
        "error" := Str("File " + filename + " not found"),
        "searched_paths" := Arr([Str(frontendDir), Str(LocalFrontendDir)]),
        "message" := Str(e.message)]))
  }

  /** The API guard does not depend on the filesystem: an `api/` path is a
      404 even when a file of that name exists. */
  lemma ApiGuardBeforeFilesystem(filename: string, frontendDir: string, fs1: FileSystem, fs2: FileSystem)
    requires IsPrefix("api/", filename)
    ensures ServeStatic(filename, frontendDir, fs1) == ServeStatic(filename, frontendDir, fs2)
  {
  }
}

=== FILE: cache_storage.dfy ===
/** The browser's Cache Storage: named caches, each a map from request
    descriptors to stored responses, kept in creation order because
    `caches.match` consults them in that order. */
module CacheStorage {
  import opened Wrappers
  import opened Http

  type Entries = map<Request, Response>

  datatype NamedCache = NamedCache(name: string, entries: Entries)

  datatype Storage = Storage(caches: seq<NamedCache>)

  /** No two caches share a name. */
  ghost predicate Wf(s: Storage) {
    forall i, j :: 0 <= i < j < |s.caches| ==> s.caches[i].name != s.caches[j].name
  }

  /** The names `caches.keys()` lists. */
  ghost function Names(s: Storage): set<string> {
    set i | 0 <= i < |s.caches| :: s.caches[i].name
  }

  /** Index of the first cache called `name`. */
  function Find(cs: seq<NamedCache>, name: string): (r: Option<nat>)
    ensures r.Some? ==> r.value < |cs| && cs[r.value].name == name
    ensures r.Some? ==> forall j :: 0 <= j < r.value ==> cs[j].name != name
    ensures r.None? ==> forall j :: 0 <= j < |cs| ==> cs[j].name != name
  {
    if |cs| == 0 then None
    else if cs[0].name == name then Some(0)
    else match Find(cs[1..], name)
      case None => None
      case Some(i) => Some(i + 1)
  }

  /** `caches.has(name)`. */
  predicate Has(s: Storage, name: string) {
    Find(s.caches, name).Some?
  }

  /** `cache.match(req)` on the cache called `name`; a missing cache holds nothing. */
  function Lookup(s: Storage, name: string, req: Request): Option<Response> {
    match Find(s.caches, name)
    case None => None
    case Some(i) => if req in s.caches[i].entries then Some(s.caches[i].entries[req]) else None
  }

  /** `caches.open(name)`: the existing cache, or a new empty one appended
      after all others. */
  function Open(s: Storage, name: string): (r: Storage)
    ensures Has(r, name)
    ensures Has(s, name) ==> r == s
    ensures !Has(s, name) ==> r.caches == s.caches + [NamedCache(name, map[])]
    ensures Names(r) == Names(s) + {name}
    ensures Wf(s) ==> Wf(r)
    ensures forall n, q :: Lookup(r, n, q) == Lookup(s, n, q)
  {
    if Has(s, name) then s
    else
      OpenAppends(s, name);
      Storage(s.caches + [NamedCache(name, map[])])
  }

  /** Facts about appending a fresh empty cache called `name`. */
  lemma OpenAppends(s: Storage, name: string)
    requires !Has(s, name)
    ensures var r := Storage(s.caches + [NamedCache(name, map[])]);
      && Has(r, name)
      && Names(r) == Names(s) + {name}
      && (Wf(s) ==> Wf(r))
      && forall n, q :: Lookup(r, n, q) == Lookup(s, n, q)
  {
    var r := Storage(s.caches + [NamedCache(name, map[])]);
    FindAppend(s.caches, NamedCache(name, map[]), name);
    assert r.caches[|s.caches|].name == name;
    forall n | n in Names(r) ensures n in Names(s) + {name} {
      var i :| 0 <= i < |r.caches| && r.caches[i].name == n;
      if i < |s.caches| { assert s.caches[i] == r.caches[i]; }
    }
    forall n | n in Names(s) ensures n in Names(r) {
      var i :| 0 <= i < |s.caches| && s.caches[i].name == n;
      assert r.caches[i] == s.caches[i];
    }
    forall n, q ensures Lookup(r, n, q) == Lookup(s, n, q) {
      FindAppend(s.caches, NamedCache(name, map[]), n);
    }
  }

  /** Appending a cache does not move the first cache of any existing name,
      and a new name is found at the end. */
  lemma {:induction false} FindAppend(cs: seq<NamedCache>, c: NamedCache, name: string)
    ensures Find(cs, name).Some? ==> Find(cs + [c], name) == Find(cs, name)
    ensures Find(cs, name).None? && c.name == name ==> Find(cs + [c], name) == Some(|cs|)
    ensures Find(cs, name).None? && c.name != name ==> Find(cs + [c], name).None?
    decreases |cs|
  {
    if |cs| > 0 {
      assert (cs + [c])[1..] == cs[1..] + [c];
      FindAppend(cs[1..], c, name);
    }
  }

  /** Two cache lists with the same names position by position find every
      name at the same index. */
  lemma FindSameNames(cs: seq<NamedCache>, ds: seq<NamedCache>, name: string)
    requires |cs| == |ds|
    requires forall i :: 0 <= i < |cs| ==> cs[i].name == ds[i].name
    ensures Find(cs, name) == Find(ds, name)
    decreases |cs|
  {
  }

  /** `caches.open(name).then(cache => cache.put(req, resp))`: the entry for
      `req` in the cache called `name` is stored or replaced, creating the
      cache if needed; nothing else changes. */
  function Put(s: Storage, name: string, req: Request, resp: Response): (r: Storage)
    ensures Lookup(r, name, req) == Some(resp)
    ensures forall n, q :: (n, q) != (name, req) ==> Lookup(r, n, q) == Lookup(s, n, q)
    ensures Names(r) == Names(s) + {name}
    ensures Wf(s) ==> Wf(r)
  {
    var o := Open(s, name);
    var i := Find(o.caches, name).value;
    PutUpdates(o, name, i, req, resp);
    Storage(o.caches[i := NamedCache(name, o.caches[i].entries[req := resp])])
  }

  /** Replacing the entries of cache `i` keeps every name where it was. */
  lemma PutUpdates(o: Storage, name: string, i: nat, req: Request, resp: Response)
    requires Find(o.caches, name) == Some(i)
    ensures var r := Storage(o.caches[i := NamedCache(name, o.caches[i].entries[req := resp])]);
      && (forall n :: Find(r.caches, n) == Find(o.caches, n))
      && Names(r) == Names(o)
      && (Wf(o) ==> Wf(r))
  {
    var cs := o.caches[i := NamedCache(name, o.caches[i].entries[req := resp])];
    forall n ensures Find(cs, n) == Find(o.caches, n) {
      FindSameNames(cs, o.caches, n);
    }
    forall n | n in Names(Storage(cs)) ensures n in Names(o) {
      var j :| 0 <= j < |cs| && cs[j].name == n;
      assert o.caches[j].name == n;
    }
    forall n | n in Names(o) ensures n in Names(Storage(cs)) {
      var j :| 0 <= j < |o.caches| && o.caches[j].name == n;
      assert cs[j].name == n;
    }
  }

  /** Some cache holds an entry for `req`. */
  ghost predicate Holds(s: Storage, req: Request) {
    exists i :: 0 <= i < |s.caches| && req in s.caches[i].entries
  }

  /** Cache `i` is the first, in creation order, that holds `req`. */
  ghost predicate FirstHolder(cs: seq<NamedCache>, req: Request, i: int) {
    && 0 <= i < |cs|
    && req in cs[i].entries
    && forall j :: 0 <= j < i ==> req !in cs[j].entries
  }

  /** First cache in `cs` holding `req`. */
  function MatchIn(cs: seq<NamedCache>, req: Request): Option<Response> {
    if |cs| == 0 then None
    else if req in cs[0].entries then Some(cs[0].entries[req])
    else MatchIn(cs[1..], req)
  }

  /** The scan answers exactly the entry of the first holder, and answers
      nothing exactly when no cache holds the request. */
  lemma {:induction false} MatchInSpec(cs: seq<NamedCache>, req: Request)
    ensures MatchIn(cs, req).Some? <==> exists i :: 0 <= i < |cs| && req in cs[i].entries
    ensures MatchIn(cs, req).Some? ==>
      exists i :: FirstHolder(cs, req, i) && MatchIn(cs, req).value == cs[i].entries[req]
    decreases |cs|
  {
    if |cs| == 0 {
    } else if req in cs[0].entries {
      assert FirstHolder(cs, req, 0);
    } else {
      MatchInSpec(cs[1..], req);
      var r := MatchIn(cs[1..], req);
      if r.Some? {
        var i :| FirstHolder(cs[1..], req, i) && r.value == cs[1..][i].entries[req];
        assert FirstHolder(cs, req, i + 1);
      } else {
        forall i | 0 <= i < |cs| ensures req !in cs[i].entries {
          if i > 0 { assert cs[i] == cs[1..][i - 1]; }
        }
      }
    }
  }

  /** `caches.match(req)`: searches every cache, oldest first, and answers
      the first entry found. */
  function Match(s: Storage, req: Request): (r: Option<Response>)
    ensures r.Some? <==> Holds(s, req)
    ensures r.Some? ==> exists i :: FirstHolder(s.caches, req, i) && r.value == s.caches[i].entries[req]
  {
    MatchInSpec(s.caches, req);
    MatchIn(s.caches, req)
  }

  /** Only one cache can be the first holder. */
  lemma FirstHolderUnique(cs: seq<NamedCache>, req: Request, i: int, j: int)
    requires FirstHolder(cs, req, i) && FirstHolder(cs, req, j)
    ensures i == j
  {
  }

  /** The caches of `cs` called `name`, in order. */
  function Retain(cs: seq<NamedCache>, name: string): (r: seq<NamedCache>)
    ensures forall i :: 0 <= i < |r| ==> r[i].name == name
    ensures forall c :: c in r <==> c in cs && c.name == name
    ensures Find(cs, name).Some? ==> |r| > 0 && r[0] == cs[Find(cs, name).value]
    ensures Find(cs, name).None? ==> r == []
  {
    if |cs| == 0 then []
    else if cs[0].name == name then [cs[0]] + Retain(cs[1..], name)
    else Retain(cs[1..], name)
  }

  /** Deletes every cache whose name differs from `name` (`caches.delete`
      for each such entry of `caches.keys()`). */
  function DeleteAllBut(s: Storage, name: string): (r: Storage)
    ensures forall i :: 0 <= i < |r.caches| ==> r.caches[i].name == name
    ensures Names(r) <= {name}
    ensures Wf(s) ==> |r.caches| <= 1
    ensures Has(r, name) <==> Has(s, name)
    ensures forall q :: Lookup(r, name, q) == Lookup(s, name, q)
  {
    RetainUnique(s, name);
    Storage(Retain(s.caches, name))
  }

  /** With distinct names at most one cache survives. */
  lemma RetainUnique(s: Storage, name: string)
    ensures Wf(s) ==> |Retain(s.caches, name)| <= 1
  {
    if Wf(s) {
      RetainDistinct(s.caches, name);
    }
  }

  lemma {:induction false} RetainDistinct(cs: seq<NamedCache>, name: string)
    requires forall i, j :: 0 <= i < j < |cs| ==> cs[i].name != cs[j].name
    ensures |Retain(cs, name)| <= 1
    decreases |cs|
  {
    if |cs| > 0 {
      RetainDistinct(cs[1..], name);
      if cs[0].name == name {
        forall j | 0 <= j < |cs[1..]| ensures cs[1..][j].name != name {
          assert cs[1..][j] == cs[j + 1];
        }
      }
    }
  }

  /** `caches.open` called twice creates the cache once. */
  lemma OpenIdempotent(s: Storage, name: string)
    ensures Open(Open(s, name), name) == Open(s, name)
  {
  }

  /** A stored response is read back verbatim from its cache, and through
      `caches.match` too when no other cache holds the same request. */
  lemma PutThenMatch(s: Storage, name: string, req: Request, resp: Response)
    requires Wf(s)
    requires forall i :: 0 <= i < |s.caches| && s.caches[i].name != name ==> req !in s.caches[i].entries
    ensures Lookup(Put(s, name, req, resp), name, req) == Some(resp)
    ensures Match(Put(s, name, req, resp), req) == Some(resp)
  {
    var o := Open(s, name);
    var k := Find(o.caches, name).value;
    var r := Put(s, name, req, resp);
    forall j | 0 <= j < |r.caches| && j != k ensures req !in r.caches[j].entries {
      assert r.caches[j] == o.caches[j] == s.caches[j];
    }
    assert FirstHolder(r.caches, req, k);
    var i :| FirstHolder(r.caches, req, i) && Match(r, req).value == r.caches[i].entries[req];
    FirstHolderUnique(r.caches, req, i, k);
  }
}

=== FILE: chain.dfy ===
/** The page and the service worker together: what the page finally shows
    for a recommendation request that passes through the worker, and when
    it announces an update. */
module Chain {
  import opened Wrappers
  import opened Text
  import opened Http
  import opened CacheStorage
  import opened ServiceWorker
  import opened Client

  /** How the page's `fetch` settles when the worker answers. */
  function PageOutcome(reply: Reply): (n: NetOutcome)
    ensures reply.Respond? <==> n.Resolved?
    ensures reply.Respond? ==> n.response == reply.response
  {
    match reply
    case Respond(r) => Resolved(r)
    case NetworkError => Rejected
  }

  /** The recommendation endpoint is an API request for the worker whatever
      host serves the page, so it is always handled network first. */
  lemma RecommendUrlIsApi(hostname: string, verb: string)
    ensures IsApi(Request(verb, ApiBaseUrl(hostname) + "/recommend"))
  {
    var url := ApiBaseUrl(hostname) + "/recommend";
    if ApiBaseUrl(hostname) == LocalApiBase {
      assert url[21..26] == "/api/";
      OccursImpliesContains(url, "/api/", 21);
    } else {
      assert url[41..46] == "/api/";
      OccursImpliesContains(url, "/api/", 41);
    }
  }

  /** The full degradation chain: network down and nothing cached, the
      worker synthesises its offline answer, and the page shows the mock
      data with the offline notification, even when the browser believes
      it is online. */
  lemma OfflineEndsInMockData(s: Storage, req: Request, w: WriteOutcome, d: FormData, online: bool)
    requires IsApi(req) && !Holds(s, req)
    ensures var h := HandleFetch(s, req, Rejected, w);
      && h.storage == s
      && GetRecommendations(d, PageOutcome(h.reply), online)
         == Resolution(Mock(GetMockRecommendations(d)), true)
  {
  }

  /** Network down but an earlier success answer is cached: the page shows
      the cached recommendations as live data, without a notification. */
  lemma CachedAnswerServedOffline(s: Storage, req: Request, w: WriteOutcome, d: FormData, online: bool, cached: Response)
    requires IsApi(req) && Match(s, req) == Some(cached)
    requires LiveSuccess(Resolved(cached))
    ensures GetRecommendations(d, PageOutcome(HandleFetch(s, req, Rejected, w).reply), online)
      == Resolution(Live(LiveField(Resolved(cached), "recommendations")), false)
  {
  }

  /** A server error passes through the worker untouched, so the page falls
      back to the mock data and announces being offline only when the
      browser says so. */
  lemma ServerErrorEndsInMockData(s: Storage, req: Request, w: WriteOutcome, d: FormData, online: bool, resp: Response)
    requires IsApi(req) && !resp.Ok() && resp.status != 503
    ensures GetRecommendations(d, PageOutcome(HandleFetch(s, req, Resolved(resp), w).reply), online)
      == Resolution(Mock(GetMockRecommendations(d)), !online)
  {
  }

  /** The update notification fires exactly when the new version's
      pre-cache succeeded and an older worker controls the page. */
  lemma UpdateNoticeAfterInstall(w: Worker, s: Storage, network: string -> NetOutcome, hasController: bool)
    ensures UpdateAvailable(StateName(Install(w, s, network).worker.phase), hasController)
      <==> AllFetchedOk(StaticCacheUrls, network) && hasController
  {
  }
}

=== FILE: client.dfy ===
/** The page script's decision logic: which API base it talks to, form
    validation, the mock-data filter, the fallback chain of
    `getRecommendations`, and the update-available condition. */
module Client {
  import opened Wrappers
  import opened Text
  import opened Json
  import opened Http

  const LocalApiBase: string := "http://localhost:5000/api"
  const DeployedApiBase: string := "https://pm-internship-engine.onrender.com/api"

  /** The API base: the local server when the page itself is served from
      the local host, the deployed service otherwise. */
  function ApiBaseUrl(hostname: string): (r: string)
    ensures r == LocalApiBase <==> hostname == "localhost" || hostname == "127.0.0.1"
    ensures r == DeployedApiBase <==> !(hostname == "localhost" || hostname == "127.0.0.1")
  {
    if hostname == "localhost" || hostname == "127.0.0.1" then LocalApiBase else DeployedApiBase
  }

  /** The collected form: `education` and `location` come from
      `FormData.get` and may be missing (`null`); skills and interests are
      the checked boxes, in document order. */
  datatype FormData = FormData(education: Option<string>, skills: seq<string>, interests: seq<string>, location: Option<string>)

  const EducationAlert: string := "Please select your education level"
  const LocationAlert: string := "Please select your preferred location"
  const SkillsAlert: string := "Please select at least one skill"
  const InterestsAlert: string := "Please select at least one area of interest"

  /** A form value is filled when it is present and not the empty string. */
  predicate Filled(v: Option<string>) {
    v.Some? && v.value != ""
  }

  /** Validation either passes or raises exactly one alert. */
  datatype Validation = Valid | Alert(message: string)

  /** Checks education, location, skills, interests in that order and
      stops at the first failure. */
  function ValidateFormData(d: FormData): (r: Validation)
    ensures r.Valid? <==> Filled(d.education) && Filled(d.location) && |d.skills| > 0 && |d.interests| > 0
    ensures !Filled(d.education) ==> r == Alert(EducationAlert)
    ensures Filled(d.education) && !Filled(d.location) ==> r == Alert(LocationAlert)
    ensures Filled(d.education) && Filled(d.location) && |d.skills| == 0 ==> r == Alert(SkillsAlert)
    ensures Filled(d.education) && Filled(d.location) && |d.skills| > 0 && |d.interests| == 0 ==>
      r == Alert(InterestsAlert)
  {
    if !JsTruthy(StrOf(d.education)) then Alert(EducationAlert)
    else if !JsTruthy(StrOf(d.location)) then Alert(LocationAlert)
    else if |d.skills| == 0 then Alert(SkillsAlert)
    else if |d.interests| == 0 then Alert(InterestsAlert)
    else Valid
  }

  /** A form value as a JavaScript value (`null` when missing). */
  function StrOf(v: Option<string>): (r: Option<Value>)
    ensures JsTruthy(r) <==> Filled(v)
  {
    match v
    case None => Some(Null)
    case Some(s) => Some(Str(s))
  }

  // The mock dataset and its filter

  datatype Internship = Internship(
    id: int, title: string, company: string, location: string, duration: string,
    stipend: string, sector: string, description: string,
    requirements: seq<string>, matchScore: int, matchReason: string)

  const FrontendIntern: Internship := Internship(1, "Frontend Developer Intern", "TechCorp India",
    "Bangalore", "6 months", "₹15,000/month", "Technology",
    "Work on modern web applications using React and JavaScript",
    ["Computer Skills", "Communication"], 95,
    "Perfect match for your computer skills and technology interest")

  const MarketingIntern: Internship := Internship(2, "Digital Marketing Intern", "Growth Solutions",
    "Mumbai", "4 months", "₹12,000/month", "Marketing",
    "Learn social media marketing and content creation",
    ["Communication", "Computer Skills"], 87,
    "Great fit for your communication skills and marketing interests")

  const DataEntrySpecialist: Internship := Internship(3, "Data Entry Specialist", "InfoSys Ltd",
    "Remote", "3 months", "₹10,000/month", "Information Technology",
    "Handle data processing and administrative tasks",
    ["Computer Skills", "Accounting"], 78,
    "Matches your computer and accounting skills")

  /** The three bundled sample records, in dataset order. */
  const MockInternships: seq<Internship> := [FrontendIntern, MarketingIntern, DataEntrySpecialist]

  const MaxMockResults: nat := 5

  /** The location as the string JavaScript compares with: a missing value
      is coerced to the text `null` by `includes`. */
  function LocationText(v: Option<string>): string {
    v.GetOr("null")
  }

  /** Some skill, taken as typed, occurs in some lower-cased requirement. */
  predicate SkillMatch(skills: seq<string>, rec: Internship) {
    exists skill | skill in skills :: exists req | req in rec.requirements :: Contains(ToLower(req), skill)
  }

  /** The wanted location is `any`, occurs in the lower-cased record
      location, or the record is remote. */
  predicate LocationMatch(location: Option<string>, rec: Internship) {
    || location == Some("any")
    || Contains(ToLower(rec.location), LocationText(location))
    || ToLower(rec.location) == "remote"
  }

  predicate Keep(d: FormData, rec: Internship) {
    SkillMatch(d.skills, rec) && LocationMatch(d.location, rec)
  }

  /** `a` is an order-preserving subsequence of `b` (greedy matching). */
  predicate IsSubsequence<T(==)>(a: seq<T>, b: seq<T>)
    decreases |b|
  {
    |a| == 0 || (|b| > 0 && if a[0] == b[0] then IsSubsequence(a[1..], b[1..]) else IsSubsequence(a, b[1..]))
  }

  /** `Array.prototype.filter` with the mock predicate. */
  function FilterKept(d: FormData, recs: seq<Internship>): (r: seq<Internship>)
    ensures IsSubsequence(r, recs)
    ensures forall x :: x in r <==> x in recs && Keep(d, x)
    ensures |r| <= |recs|
    ensures forall x :: multiset(r)[x] == if Keep(d, x) then multiset(recs)[x] else 0
  {
    if |recs| == 0 then []
    else
      MultisetSplit(recs);
      if Keep(d, recs[0]) then [recs[0]] + FilterKept(d, recs[1..])
      else FilterKept(d, recs[1..])
  }

  /** A non-empty sequence's multiset is its head plus its tail's. */
  lemma MultisetSplit<T>(s: seq<T>)
    requires |s| > 0
    ensures multiset(s) == multiset{s[0]} + multiset(s[1..])
  {
    assert s == [s[0]] + s[1..];
  }

  /** A prefix of a subsequence is still a subsequence. */
  lemma {:induction false} PrefixOfSubsequence<T>(a: seq<T>, b: seq<T>, n: nat)
    requires IsSubsequence(a, b) && n <= |a|
    ensures IsSubsequence(a[..n], b)
    decreases |b|
  {
    if n > 0 {
      if a[0] == b[0] {
        assert a[..n][1..] == a[1..][..n - 1];
        PrefixOfSubsequence(a[1..], b[1..], n - 1);
      } else {
        PrefixOfSubsequence(a, b[1..], n);
      }
    }
  }

  /** `Array.prototype.slice(0, n)`: the first `n` elements, or all of
      them when there are fewer. */
  function Take<T>(s: seq<T>, n: nat): (r: seq<T>)
    ensures |r| <= n && |r| <= |s| && r == s[..|r|]
    ensures |s| <= n ==> r == s
    ensures |s| > n ==> |r| == n
  {
    if |s| <= n then s else s[..n]
  }

  /** The offline fallback data: the kept sample records in dataset order,
      at most five of them. */
  function GetMockRecommendations(d: FormData): (r: seq<Internship>)
    ensures |r| <= MaxMockResults
    ensures IsSubsequence(r, MockInternships)
    ensures forall x :: x in r <==> x in MockInternships && Keep(d, x)
  {
    var kept := FilterKept(d, MockInternships);
    var r := Take(kept, MaxMockResults);
    PrefixOfSubsequence(kept, MockInternships, |r|);
    r
  }

  /** With no skill selected nothing matches. */
  lemma NoSkillsNoMock(d: FormData)
    requires d.skills == []
    ensures GetMockRecommendations(d) == []
  {
    NoneKept(d, MockInternships);
  }

  lemma {:induction false} NoneKept(d: FormData, recs: seq<Internship>)
    requires forall x | x in recs :: !Keep(d, x)
    ensures FilterKept(d, recs) == []
    decreases |recs|
  {
    if |recs| > 0 {
      assert recs[0] in recs;
      NoneKept(d, recs[1..]);
    }
  }

  /** The sample query: skill `computer skills` and location `bangalore`
      keep records 1 and 3, in that order. Record 2 has the skill but is in
      Mumbai, which neither contains `bangalore` nor is remote. */
  lemma MockExample(education: Option<string>, interests: seq<string>)
    ensures var r := GetMockRecommendations(FormData(education, ["computer skills"], interests, Some("bangalore")));
      |r| == 2 && r[0].id == 1 && r[1].id == 3
  {
    var d := FormData(education, ["computer skills"], interests, Some("bangalore"));
    ExampleSkill(d, FrontendIntern, 0);
    ExampleSkill(d, MarketingIntern, 1);
    ExampleSkill(d, DataEntrySpecialist, 0);
    ExampleLocations(d);
    ExampleFilter(d);
  }

  /** With the first and third record kept and the second dropped, the
      filter answers the first and the third. */
  lemma ExampleFilter(d: FormData)
    requires Keep(d, FrontendIntern) && !Keep(d, MarketingIntern) && Keep(d, DataEntrySpecialist)
    ensures FilterKept(d, MockInternships) == [FrontendIntern, DataEntrySpecialist]
  {
    var m := MockInternships;
    assert m[1..] == [MarketingIntern, DataEntrySpecialist];
    assert m[1..][1..] == [DataEntrySpecialist];
    assert m[1..][1..][1..] == [];
    assert FilterKept(d, []) == [];
    assert FilterKept(d, [DataEntrySpecialist]) == [DataEntrySpecialist] + FilterKept(d, []);
    assert FilterKept(d, [MarketingIntern, DataEntrySpecialist]) == FilterKept(d, [DataEntrySpecialist]);
  }

  /** Every sample record lists `Computer Skills`, which lower-cases to the
      sample skill. */
  lemma ExampleSkill(d: FormData, rec: Internship, k: nat)
    requires d.skills == ["computer skills"]
    requires k < |rec.requirements| && rec.requirements[k] == "Computer Skills"
    ensures SkillMatch(d.skills, rec)
  {
    var low := ToLower("Computer Skills");
    assert low == "computer skills";
    OccursImpliesContains(low, "computer skills", 0);
    assert d.skills[0] in d.skills;
    assert rec.requirements[k] in rec.requirements;
  }

  /** Bangalore contains the sample location, Remote is remote, Mumbai is
      neither. */
  lemma ExampleLocations(d: FormData)
    requires d.location == Some("bangalore")
    ensures LocationMatch(d.location, FrontendIntern)
    ensures !LocationMatch(d.location, MarketingIntern)
    ensures LocationMatch(d.location, DataEntrySpecialist)
  {
    assert ToLower("Bangalore") == "bangalore";
    OccursImpliesContains("bangalore", "bangalore", 0);
    assert ToLower("Mumbai") == "mumbai";
    NotContainsLonger("mumbai", "bangalore");
    assert ToLower("Remote") == "remote";
  }

  /** The skill test is not case-insensitive on the skill side: a skill
      typed with a capital letter matches no lower-cased requirement. */
  lemma CapitalisedSkillNeverMatches(skill: string, rec: Internship)
    requires exists i :: 0 <= i < |skill| && 'A' <= skill[i] <= 'Z'
    ensures !SkillMatch([skill], rec)
  {
    var i :| 0 <= i < |skill| && 'A' <= skill[i] <= 'Z';
    forall req | req in rec.requirements ensures !Contains(ToLower(req), skill) {
      var low := ToLower(req);
      ContainsIff(low, skill);
      forall k ensures !OccursAt(low, skill, k) {
        if 0 <= k && k + |skill| <= |low| {
          assert low[k..k + |skill|][i] == low[k + i];
          assert low[k + i] != skill[i];
        }
      }
    }
  }

  // The fallback chain

  /** What `getRecommendations` resolves to: the `recommendations` property
      of a live answer (possibly `undefined`), or the mock data. */
  datatype Recommendations = Live(value: Option<Value>) | Mock(records: seq<Internship>)

  /** The resolved value and whether the offline notification was shown. */
  datatype Resolution = Resolution(result: Recommendations, offlineNotice: bool)

  /** The `try` block: it either returns or throws an error message. */
  datatype Attempt = Returned(resolution: Resolution) | Threw(message: string)

  const RetryMessage: string := "Failed to get recommendations. Please try again."
  const FailedMessage: string := "Failed to get recommendations"

  /** The body of the `try`: fetch, inspect the status, parse, inspect
      `success`. */
  function TryRecommend(d: FormData, net: NetOutcome): (a: Attempt)
    ensures a.Returned? && a.resolution.result.Mock? ==> a.resolution.offlineNotice
  {
    match net
    case Rejected => Threw("TypeError: Failed to fetch")
    case Resolved(resp) =>
      if !resp.Ok() then
        if resp.status == 503 then
          match ParseJson(resp.body)
          case Err(e) => Threw(e)
          case Ok(errorData) =>
            match Prop(errorData, "offline")
            case Err(e) => Threw(e)
            case Ok(offline) =>
              if JsTruthy(offline) then Returned(Resolution(Mock(GetMockRecommendations(d)), true))
              else Threw(RetryMessage)
        else Threw(RetryMessage)
      else
        match ParseJson(resp.body)
        case Err(e) => Threw(e)
        case Ok(data) =>
          match Prop(data, "success")
          case Err(e) => Threw(e)
          case Ok(success) =>
            if !JsTruthy(success) then Threw(FailedMessage)
            else Returned(Resolution(Live(Prop(data, "recommendations").value), false))
  }

  /** The `catch`: every error becomes mock data, with the offline
      notification only when the browser reports being offline. */
  function Catch(d: FormData, online: bool): (r: Resolution)
    ensures r.result == Mock(GetMockRecommendations(d))
    ensures r.offlineNotice <==> !online
  {
    Resolution(Mock(GetMockRecommendations(d)), !online)
  }

  /** `getRecommendations`: the value the promise resolves to. There is no
      rejection case: whatever the `try` throws is caught. */
  function GetRecommendations(d: FormData, net: NetOutcome, online: bool): (r: Resolution)
    ensures r.result.Live? <==> LiveSuccess(net)
    ensures LiveSuccess(net) ==> r.result == Live(LiveField(net, "recommendations"))
    ensures !LiveSuccess(net) ==> r.result == Mock(GetMockRecommendations(d))
    ensures r.offlineNotice <==> OfflineSignal(net) || (!online && !LiveSuccess(net))
  {
    match TryRecommend(d, net)
    case Returned(res) => res
    case Threw(_) => Catch(d, online)
  }

  /** The JSON object of an ok response whose `success` is truthy. */
  predicate LiveSuccess(net: NetOutcome) {
    && net.Resolved? && net.response.Ok()
    && net.response.body.JsonBody? && net.response.body.value.Obj?
    && "success" in net.response.body.value.fields
    && JsTruthy(Some(net.response.body.value.fields["success"]))
  }

  /** A property of the JSON object a response carries (`undefined` when absent). */
  function LiveField(net: NetOutcome, key: string): Option<Value>
    requires net.Resolved? && net.response.body.JsonBody? && net.response.body.value.Obj?
  {
    var fields := net.response.body.value.fields;
    if key in fields then Some(fields[key]) else None
  }

  /** A non-ok 503 whose JSON object has a truthy `offline` property. */
  predicate OfflineSignal(net: NetOutcome) {
    && net.Resolved? && net.response.status == 503
    && net.response.body.JsonBody? && net.response.body.value.Obj?
    && "offline" in net.response.body.value.fields
    && JsTruthy(Some(net.response.body.value.fields["offline"]))
  }

  /** Every failure thrown inside the `try` block ends in the mock data. */
  lemma ThrowsLandInCatch(d: FormData, net: NetOutcome, online: bool)
    requires TryRecommend(d, net).Threw?
    ensures GetRecommendations(d, net, online) == Catch(d, online)
  {
  }

  /** The update notification: the new worker has reached `installed`
      while a worker already controls the page. */
  predicate UpdateAvailable(newWorkerState: string, hasController: bool)
    ensures UpdateAvailable(newWorkerState, hasController) ==> hasController
    ensures newWorkerState != "installed" ==> !UpdateAvailable(newWorkerState, hasController)
  {
    newWorkerState == "installed" && hasController
  }
}

=== FILE: http.dfy ===
/** Requests, responses and network outcomes as the service worker and the
    page see them. */
module Http {
  import opened Json

  /** A request descriptor: the HTTP method (`request.method`) and the URL.
      The Cache API keys entries by it. URLs are compared as the strings
      given, with no resolution against the page's origin: the install
      handler keys its entries by the relative paths it lists (`/index.html`),
      while the fetch handler sees whatever URL the page requested, so a
      pre-cached entry answers a later fetch only when the two strings
      agree. */
  datatype Request = Request(verb: string, url: string)

  /** A response body is either the serialisation of a JSON value or some
      other payload (HTML, CSS, script text, an empty body) that `json()`
      refuses to parse. */
  datatype Body = JsonBody(value: Value) | OtherBody(text: string)

  datatype Response = Response(status: int, headers: map<string, string>, body: Body) {
    /** `response.ok`: the status is in the range 200-299. */
    predicate Ok() {
      200 <= status <= 299
    }
  }

  /** What `fetch` settles to: a rejected promise (no connectivity, DNS or
      CORS failure) or a resolved response of any status. */
  datatype NetOutcome = Rejected | Resolved(response: Response)

  /** `response.json()`: the parsed value, or a parse failure (a thrown
      SyntaxError) for a body that is not JSON. */
  function ParseJson(body: Body): (r: Wrappers.Result<Value>)
    ensures r.Ok? <==> body.JsonBody?
    ensures body.JsonBody? ==> r.value == body.value
  {
    match body
    case JsonBody(v) => Wrappers.Ok(v)
    case OtherBody(_) => Wrappers.Err("SyntaxError: Unexpected token")
  }
}

=== FILE: json.dfy ===
/** JSON values as both the browser scripts and the Python service see them,
    with the two languages' notions of truthiness and JavaScript's property
    access. Numbers are modelled as integers. */
module Json {
  import opened Wrappers

  datatype Value =
    | Null
    | Bool(b: bool)
    | Num(n: int)
    | Str(s: string)
    | Arr(items: seq<Value>)
    | Obj(fields: map<string, Value>)

  /** JavaScript truthiness of a possibly-`undefined` value: `undefined`,
      `null`, `false`, `0` and `""` are falsy; arrays and objects, even empty
      ones, are truthy. */
  predicate JsTruthy(v: Option<Value>)
    ensures !JsTruthy(v) <==>
      v == None || v == Some(Null) || v == Some(Bool(false)) || v == Some(Num(0)) || v == Some(Str(""))
  {
    match v
    case None => false
    case Some(Null) => false
    case Some(Bool(b)) => b
    case Some(Num(n)) => n != 0
    case Some(Str(s)) => s != ""
    case Some(Arr(_)) => true
    case Some(Obj(_)) => true
  }

  /** Python truthiness (`not x` is false): `None`, `False`, `0`, `''` and
      empty lists and dicts are falsy. */
  predicate PyTruthy(v: Value)
    ensures !PyTruthy(v) <==>
      v == Null || v == Bool(false) || v == Num(0) || v == Str("") || v == Arr([]) || v == Obj(map[])
  {
    match v
    case Null => false
    case Bool(b) => b
    case Num(n) => n != 0
    case Str(s) => s != ""
    case Arr(items) => items != []
    case Obj(fields) => fields != map[]
  }

  /** The two languages disagree exactly on empty arrays and objects. */
  lemma TruthinessDiffers(v: Value)
    ensures JsTruthy(Some(v)) != PyTruthy(v) <==> v == Arr([]) || v == Obj(map[])
  {
  }

  /** JavaScript `v.key`: reading a property of `null` throws a TypeError;
      an absent property, or any property of a primitive or an array here,
      reads as `undefined`. */
  function Prop(v: Value, key: string): (r: Result<Option<Value>>)
    ensures r.Err? <==> v.Null?
    ensures r.Ok? && r.value.Some? <==> v.Obj? && key in v.fields
    ensures v.Obj? && key in v.fields ==> r == Ok(Some(v.fields[key]))
  {
    match v
    case Null => Err("TypeError: Cannot read properties of null")
    case Obj(fields) => if key in fields then Ok(Some(fields[key])) else Ok(None)
    case _ => Ok(None)
  }
}

=== FILE: service_worker.dfy ===
/** The service worker: request classification, the network-first strategy
    for API calls, the cache-first strategy for static assets, and the
    install / activate / message lifecycle handlers. */
module ServiceWorker {
  import opened Wrappers
  import opened Text
  import opened Json
  import opened Http
  import opened CacheStorage

  /** The one cache name this version of the worker owns. */
  const CacheName: string := "pm-internship-v1"

  /** The entry-point resources pre-cached on install. */
  const StaticCacheUrls: seq<string> := ["/", "/index.html", "/styles.css", "/script.js", "/manifest.json"]

  const OfflineMessage: string := "You are offline. Please check your internet connection."

  /** API requests are those whose URL contains `/api/` anywhere. */
  predicate IsApi(req: Request) {
    Contains(req.url, "/api/")
  }

  /** The classification is a pure substring test on the URL: the method
      plays no part, and the marker may sit anywhere in it. */
  lemma IsApiIff(req: Request)
    ensures IsApi(req) <==> exists i :: OccursAt(req.url, "/api/", i)
  {
    ContainsIff(req.url, "/api/");
  }

  /** Whether a fire-and-forget `cache.put` lands or is lost (quota
      exhausted, storage error); the response path never waits for it. */
  datatype WriteOutcome = Committed | Dropped

  /** What `event.respondWith` settles to: a response, or a rejected
      promise that the page sees as a network error. */
  datatype Reply = Respond(response: Response) | NetworkError

  datatype Handled = Handled(reply: Reply, storage: Storage)

  /** The synthetic answer for an API request that neither the network nor
      any cache can satisfy. */
  function OfflineResponse(): (r: Response)
    ensures r.status == 503 && !r.Ok()
    ensures r.headers == map["Content-Type" := "application/json"]
    ensures r.body.JsonBody? && Prop(r.body.value, "offline") == Ok(Some(Bool(true)))
    ensures r.body.JsonBody? && Prop(r.body.value, "error") == Ok(Some(Str(OfflineMessage)))
  {
    Response(503, map["Content-Type" := "application/json"],
      JsonBody(Obj(map["error" := Str(OfflineMessage), "offline" := Bool(true)])))
  }

  /** The background copy into the worker's own cache: `caches.open`
      always runs (creating the cache when missing); only the `put` that
      follows may be lost. */
  function WriteBack(s: Storage, req: Request, resp: Response, w: WriteOutcome): (r: Storage)
    ensures w.Dropped? ==> r == Open(s, CacheName)
    ensures Names(r) == Names(s) + {CacheName}
    ensures w.Committed? ==> Lookup(r, CacheName, req) == Some(resp)
    ensures forall n, q :: (n, q) != (CacheName, req) ==> Lookup(r, n, q) == Lookup(s, n, q)
    ensures Wf(s) ==> Wf(r)
  {
    if w.Committed? then Put(s, CacheName, req, resp) else Open(s, CacheName)
  }

  /** Network first: any resolved response is passed through and, when ok,
      copied into the cache; only a rejected fetch consults the caches, and
      a miss there yields the synthetic offline response. */
  function NetworkFirst(s: Storage, req: Request, net: NetOutcome, w: WriteOutcome): (h: Handled)
    ensures h.reply.Respond?
    ensures net.Resolved? ==> h.reply == Respond(net.response)
    ensures net.Resolved? && net.response.Ok() && w.Committed? ==>
      Lookup(h.storage, CacheName, req) == Some(net.response)
    ensures forall n, q :: (n, q) != (CacheName, req) ==> Lookup(h.storage, n, q) == Lookup(s, n, q)
    ensures !(net.Resolved? && net.response.Ok()) ==> h.storage == s
    ensures net.Rejected? && Holds(s, req) ==>
      exists i :: FirstHolder(s.caches, req, i) && h.reply == Respond(s.caches[i].entries[req])
    ensures net.Rejected? && !Holds(s, req) ==> h.reply == Respond(OfflineResponse())
    ensures Wf(s) ==> Wf(h.storage)
  {
    match net
    case Resolved(resp) =>
      if resp.Ok() then Handled(Respond(resp), WriteBack(s, req, resp, w))
      else Handled(Respond(resp), s)
    case Rejected =>
      match Match(s, req)
      case Some(cached) => Handled(Respond(cached), s)
      case None => Handled(Respond(OfflineResponse()), s)
  }

  /** Cache first: a hit is answered without touching the network; on a
      miss the network result is passed through, copied into the cache only
      for an ok answer to a GET, and a rejected fetch fails the request. */
  function CacheFirst(s: Storage, req: Request, net: NetOutcome, w: WriteOutcome): (h: Handled)
    ensures Holds(s, req) ==> h.storage == s
    ensures Holds(s, req) ==>
      exists i :: FirstHolder(s.caches, req, i) && h.reply == Respond(s.caches[i].entries[req])
    ensures !Holds(s, req) && net.Rejected? ==> h == Handled(NetworkError, s)
    ensures !Holds(s, req) && net.Resolved? ==> h.reply == Respond(net.response)
    ensures !Holds(s, req) && net.Resolved? && net.response.Ok() && req.verb == "GET" && w.Committed? ==>
      Lookup(h.storage, CacheName, req) == Some(net.response)
    ensures forall n, q :: (n, q) != (CacheName, req) ==> Lookup(h.storage, n, q) == Lookup(s, n, q)
    ensures !(net.Resolved? && net.response.Ok() && req.verb == "GET") ==> h.storage == s
    ensures Wf(s) ==> Wf(h.storage)
  {
    match Match(s, req)
    case Some(cached) => Handled(Respond(cached), s)
    case None =>
      match net
      case Rejected => Handled(NetworkError, s)
      case Resolved(resp) =>
        if resp.Ok() && req.verb == "GET" then Handled(Respond(resp), WriteBack(s, req, resp, w))
        else Handled(Respond(resp), s)
  }

  /** The fetch handler: classify, then apply the strategy of the class. */
  function HandleFetch(s: Storage, req: Request, net: NetOutcome, w: WriteOutcome): (h: Handled)
    ensures IsApi(req) ==> h.reply.Respond?
    ensures forall n, q :: (n, q) != (CacheName, req) ==> Lookup(h.storage, n, q) == Lookup(s, n, q)
    ensures h.storage != s ==> net.Resolved? && net.response.Ok()
    ensures Wf(s) ==> Wf(h.storage)
  {
    if IsApi(req) then NetworkFirst(s, req, net, w) else CacheFirst(s, req, net, w)
  }

  /** The answer never depends on whether the background cache write lands. */
  lemma ReplyIndependentOfWrite(s: Storage, req: Request, net: NetOutcome)
    ensures HandleFetch(s, req, net, Committed).reply == HandleFetch(s, req, net, Dropped).reply
  {
  }

  /** A static request with a cache hit never consults the network: any two
      network outcomes give the same reply and the same storage. */
  lemma StaticHitIgnoresNetwork(s: Storage, req: Request, n1: NetOutcome, n2: NetOutcome, w1: WriteOutcome, w2: WriteOutcome)
    requires !IsApi(req) && Holds(s, req)
    ensures HandleFetch(s, req, n1, w1) == HandleFetch(s, req, n2, w2)
  {
  }

  /** The central asymmetry: with an ok network answer and a cached entry
      both available, an API request is answered from the network and a
      static request from the cache. */
  lemma StrategyAsymmetry(s: Storage, req: Request, resp: Response, w: WriteOutcome)
    requires Holds(s, req) && resp.Ok()
    ensures IsApi(req) ==> HandleFetch(s, req, Resolved(resp), w).reply == Respond(resp)
    ensures !IsApi(req) ==> HandleFetch(s, req, Resolved(resp), w).reply == Respond(Match(s, req).value)
  {
  }

  /** A non-ok API answer is final: it reaches the page even when a cached
      copy exists, and nothing is written. */
  lemma ApiErrorStatusSkipsFallback(s: Storage, req: Request, resp: Response, w: WriteOutcome)
    requires IsApi(req) && !resp.Ok()
    ensures HandleFetch(s, req, Resolved(resp), w) == Handled(Respond(resp), s)
  {
  }

  // Lifecycle

  datatype Phase = Installing | Installed | Activated | Redundant

  /** The worker's lifecycle phase and the takeover requests it has made. */
  datatype Worker = Worker(phase: Phase, skipWaitingRequested: bool, claimedClients: bool)

  /** The worker's `state` string as a registration reports it. */
  function StateName(p: Phase): string {
    match p
    case Installing => "installing"
    case Installed => "installed"
    case Activated => "activated"
    case Redundant => "redundant"
  }

  /** The request `GET url` used by `cache.addAll`. */
  function Get(url: string): Request {
    Request("GET", url)
  }

  /** Each URL is fetched and answered ok. */
  predicate AllFetchedOk(urls: seq<string>, network: string -> NetOutcome) {
    forall u | u in urls :: network(u).Resolved? && network(u).response.Ok()
  }

  /** Stores the response for every URL into the worker's cache, in order. */
  function PutAll(s: Storage, urls: seq<string>, network: string -> NetOutcome): (r: Storage)
    requires AllFetchedOk(urls, network)
    ensures forall u | u in urls :: Lookup(r, CacheName, Get(u)) == Some(network(u).response)
    ensures forall n, q: Request :: (n != CacheName || q.verb != "GET" || q.url !in urls) ==> Lookup(r, n, q) == Lookup(s, n, q)
    ensures Wf(s) ==> Wf(r)
    ensures |urls| > 0 ==> Has(r, CacheName)
    decreases |urls|
  {
    if |urls| == 0 then s
    else PutAll(Put(s, CacheName, Get(urls[0]), network(urls[0]).response), urls[1..], network)
  }

  /** `cache.addAll`: all entries or none (a host assumption: the Cache API
      commits addAll atomically). */
  function AddAll(s: Storage, urls: seq<string>, network: string -> NetOutcome): (r: Result<Storage>)
    ensures r.Ok? <==> AllFetchedOk(urls, network)
    ensures r.Ok? ==> forall u | u in urls :: Lookup(r.value, CacheName, Get(u)) == Some(network(u).response)
    ensures r.Ok? ==> forall n, q: Request :: (n != CacheName || q.verb != "GET" || q.url !in urls) ==>
      Lookup(r.value, n, q) == Lookup(s, n, q)
  {
    if AllFetchedOk(urls, network) then Ok(PutAll(s, urls, network))
    else Err("TypeError: Request failed")
  }

  datatype Installation = Installation(worker: Worker, storage: Storage)

  /** The install handler: open the cache, pre-cache the static entry points
      and, whatever happens to that, ask to skip waiting. A failed pre-cache
      makes the worker redundant and leaves storage as `caches.open` returned
      it: usually the existing cache of the same name with its entries, since
      the name does not change between versions. */
  function Install(w: Worker, s: Storage, network: string -> NetOutcome): (r: Installation)
    ensures r.worker.skipWaitingRequested
    ensures r.worker.phase == Installed <==> AllFetchedOk(StaticCacheUrls, network)
    ensures r.worker.phase == Installed ==>
      forall u | u in StaticCacheUrls :: Lookup(r.storage, CacheName, Get(u)) == Some(network(u).response)
    ensures r.worker.phase == Installed ==>
      forall n, q: Request :: (n != CacheName || q.verb != "GET" || q.url !in StaticCacheUrls) ==>
        Lookup(r.storage, n, q) == Lookup(s, n, q)
    ensures r.worker.phase != Installed ==> r.worker.phase == Redundant && r.storage == Open(s, CacheName)
    ensures Has(r.storage, CacheName)
    ensures Wf(s) ==> Wf(r.storage)
  {
    var c := Open(s, CacheName);
    match AddAll(c, StaticCacheUrls, network)
    case Ok(filled) => Installation(w.(phase := Installed, skipWaitingRequested := true), filled)
    case Err(_) => Installation(w.(phase := Redundant, skipWaitingRequested := true), c)
  }

  /** The activate handler: delete every cache not named after this version
      and claim the open pages. */
  function Activate(w: Worker, s: Storage): (r: Installation)
    ensures forall i :: 0 <= i < |r.storage.caches| ==> r.storage.caches[i].name == CacheName
    ensures Wf(s) ==> |r.storage.caches| <= 1
    ensures Has(r.storage, CacheName) <==> Has(s, CacheName)
    ensures forall q :: Lookup(r.storage, CacheName, q) == Lookup(s, CacheName, q)
    ensures r.worker.phase == Activated && r.worker.claimedClients
  {
    Installation(w.(phase := Activated, claimedClients := true), DeleteAllBut(s, CacheName))
  }

  /** After activation `caches.match` answers only from the current cache. */
  lemma ActivatedMatchUsesCurrentCache(w: Worker, s: Storage, req: Request)
    requires Wf(s)
    ensures Match(Activate(w, s).storage, req) == Lookup(s, CacheName, req)
  {
  }

  /** A message asks to skip waiting when its data is an object whose `type`
      property is the string `SKIP_WAITING`. */
  predicate IsSkipWaitingMessage(data: Option<Value>) {
    data.Some? && data.value.Obj? && "type" in data.value.fields
    && data.value.fields["type"] == Str("SKIP_WAITING")
  }

  /** The message handler: `event.data && event.data.type === 'SKIP_WAITING'`. */
  function OnMessage(w: Worker, data: Option<Value>): (r: Worker)
    ensures IsSkipWaitingMessage(data) ==> r == w.(skipWaitingRequested := true)
    ensures !IsSkipWaitingMessage(data) ==> r == w
  {
    if JsTruthy(data) && Prop(data.value, "type") == Ok(Some(Str("SKIP_WAITING")))
    then w.(skipWaitingRequested := true)
    else w
  }
}

=== FILE: text.dfy ===
/** String primitives used by the three layers: case folding, prefix and
    substring tests (JavaScript `toLowerCase`, `startsWith`, `includes`;
    Python `lower`, `startswith`, `in`). */
module Text {

  /** ASCII case folding of one character; every other character is kept. */
  function LowerChar(c: char): (r: char)
    ensures 'A' <= c <= 'Z' ==> r as int == c as int + 32
    ensures !('A' <= c <= 'Z') ==> r == c
    ensures !('A' <= r <= 'Z')
  {
    if 'A' <= c <= 'Z' then (c as int + 32) as char else c
  }

  /** Character-wise case folding of a whole string. */
  function ToLower(s: string): (r: string)
    ensures |r| == |s|
    ensures forall i :: 0 <= i < |s| ==> r[i] == LowerChar(s[i])
  {
    seq(|s|, i requires 0 <= i < |s| => LowerChar(s[i]))
  }

  /** `p` is a prefix of `s` (`s.startsWith(p)`). */
  predicate IsPrefix(p: string, s: string) {
    |p| <= |s| && s[..|p|] == p
  }

  /** `p` occurs in `s` starting at index `i`. */
  ghost predicate OccursAt(s: string, p: string, i: int) {
    0 <= i && i + |p| <= |s| && s[i..i + |p|] == p
  }

  /** Substring test (`s.includes(p)`, Python `p in s`), by scanning `s`
      from the left; the empty string occurs in every string. */
  function Contains(s: string, p: string): bool
    decreases |s|
  {
    IsPrefix(p, s) || (|s| > 0 && Contains(s[1..], p))
  }

  /** An occurrence at index `i` is found by the scan. */
  lemma {:induction false} OccursImpliesContains(s: string, p: string, i: int)
    requires OccursAt(s, p, i)
    ensures Contains(s, p)
    decreases i
  {
    if i == 0 {
      assert IsPrefix(p, s);
    } else {
      assert s[1..][i - 1..i - 1 + |p|] == s[i..i + |p|];
      OccursImpliesContains(s[1..], p, i - 1);
    }
  }

  /** When the scan succeeds it has passed an occurrence; returns its index. */
  lemma {:induction false} ContainsWitness(s: string, p: string) returns (i: int)
    requires Contains(s, p)
    ensures OccursAt(s, p, i)
    decreases |s|
  {
    if IsPrefix(p, s) {
      i := 0;
    } else {
      var j := ContainsWitness(s[1..], p);
      assert s[j + 1..j + 1 + |p|] == s[1..][j..j + |p|];
      i := j + 1;
    }
  }

  /** The scan finds `p` exactly when it occurs at some index of `s`. */
  lemma ContainsIff(s: string, p: string)
    ensures Contains(s, p) <==> exists i :: OccursAt(s, p, i)
  {
    if Contains(s, p) {
      var i := ContainsWitness(s, p);
    }
    forall i | OccursAt(s, p, i) ensures Contains(s, p) {
      OccursImpliesContains(s, p, i);
    }
  }

  /** A pattern longer than the text never occurs in it. */
  lemma NotContainsLonger(s: string, p: string)
    requires |s| < |p|
    ensures !Contains(s, p)
  {
  }
}

=== FILE: wrappers.dfy ===
/** Failure-carrying datatypes shared by every module of the model. */
module Wrappers {

  /** A value that may be absent (JavaScript `undefined`, Python `None`, a cache miss). */
  datatype Option<+T> = None | Some(value: T) {

    /** The encapsulated value, or `default` when there is none. */
    function GetOr(default: T): T {
      match this
      case Some(v) => v
      case None => default
    }
  }

  /** The outcome of an operation that may raise: a value or an error message. */
  datatype Result<+R> = Ok(value: R) | Err(message: string)
}
